=== FILE: README.md ===
# attachGL: GL classification and per-date sheets, in Dafny

`attachGL.py` turns a point-of-sale CSV export into one spreadsheet per
transaction date. For each row it asks the operator which general-ledger
(GL) category the transaction belongs to, and then appends the row to
that date's sheet. The sheet gets the row's values, the chosen GL code and
a running footer that sums the "Net Total" column.

This project models the three deterministic parts of the script:

- **Choosing a GL** (`getGL`, module `Selection`). The twelve categories
  (module `Ledger`) are offered as a menu numbered from 1. Only the part of
  the description before its first comma is shown (module `Text`). The
  operator's lines are a scripted sequence. Each line is read as Python's
  `int()` reads it (module `Decimal`), or is given already read as
  `Option<int>`. A line is accepted exactly when it reads as an integer
  from 1 to 12. Any other line prints one of two diagnostics and the
  prompt asks again. A session ends with the first accepted line, or with
  "no choice" when the lines run out.
  The script has no similarity ranking and no default choice. The comment
  at attachGL.py:43-45 proposes sorting categories by longest common
  substring, but nothing implements it. An empty line is simply not an
  integer, so it is rejected.
- **The date → sheet map** (`ssheets`, `updateWorksheet`, module
  `Sheets`). The first row of a date opens a sheet, writes the header row
  and sets `row_count = 1`. Every append then writes at `row_count` and
  adds one to it. No other date's sheet changes.
- **The cells of one append** (`appendWorksheetRow`). A worksheet is
  modelled as the ordered log of calls made on it. `CellAt` reads off what
  a cell ends up holding, since the last write wins. The model places the
  values, the GL code, the blanks, "Totals:" and the
  `SUM(<col>2:<col><row_count+1>)` formula, and sets hidden and wide
  columns. Column letters come from module `ColumnName` (A … Z, AA, …).

The summed-column test is configurable (`Sheets.Config`). `SourceConfig`
is the script as written: `summed_column_names` is the bare string
"Net Total", so membership is a substring test. `IntendedConfig` sums
only the column named "Net Total". Every layout, row-count and footer
lemma is stated for any configuration, so it holds for both. The lemmas
listed under Findings (`SourceSumsPieces`, `SourceSumsNetColumn`,
`IntendedFormulasOnlyUnderNetTotal`, `ConfigsAgreeOnShownColumns`) are
each about one of the two configurations, or compare them.

## Model

| member | source | states |
|---|---|---|
| Ledger.TableShape | attachGL.py:46-59 | there are twelve categories, and no two share a code or a name |
| Selection.Shown | attachGL.py:73-74 | the description line shown is a prefix of the description without a comma. It is either the whole description or stops just before the first comma |
| Selection.ShownSample | attachGL.py:19 | for the full description of the sample transaction in the script's header comment, only "Custom Amount - Reservation for Fabrication Access PM" is shown. No other cleaning happens |
| Text.JoinSplit | attachGL.py:73 | splitting on a comma loses nothing: joining the fields with commas gives the description back |
| Text.SplitJoin | attachGL.py:73 | comma-free fields joined with commas split back into exactly those fields |
| Text.BeforeUnique | attachGL.py:74 | the first field is the only prefix that has no separator and is followed by a separator or by the end of the text |
| Selection.LabelReadsBack | attachGL.py:65-68 | the label of menu line i (0-based), read by `int()`, is i + 1 |
| Selection.AcceptedAreMenuNumbers | attachGL.py:80-82 | an integer is accepted if and only if it is one of the menu labels. The category chosen is the one on the line with that label, `gls[val-1]` |
| Selection.OutOfRangeText | attachGL.py:84 | the range diagnostic reads "Value must be between 1 and 12, inclusive" |
| Selection.ChooseDescribes | attachGL.py:76-86 | the session ends at the first accepted input. Every input before it was rejected and printed exactly one diagnostic, matching its kind. If nothing is accepted, every input was rejected |
| Selection.DescribesUnique | attachGL.py:76-86 | a given input sequence has at most one session outcome, so the loop's result is determined |
| Selection.Prompt | attachGL.py:76-86 | the imperative read/check/complain loop returns the same outcome as `Choose`: the first accepted input, with one diagnostic per earlier input |
| Selection.ChooseConcat | attachGL.py:76-86 | input after the accepted line is never read. If no line was accepted, the session carries on into the next lines and keeps the diagnostics already printed |
| Selection.ScriptedSession | attachGL.py:78-86 | the typed lines "abc", "99", "2": first the integer diagnostic, then the range diagnostic, then the second category |
| Selection.EmptyLineHasNoDefault | attachGL.py:78-80 | an empty line chooses nothing and prints "Input must be an integer.  Try again". There is no default |
| Selection.ChooseLines | attachGL.py:76-86 | over raw lines, each read by `int()`, the session fits `Describes`. Every line before the accepting one was rejected with its own diagnostic. The accepting line is the first one that reads as a menu number. If none does, every line was rejected |
| Selection.ChooseLinesChosen | attachGL.py:80-82 | the line that picks a category reads as an integer v from 1 to 12, and the category returned is `gls[v-1]` |
| Decimal.ReadableChars | attachGL.py:80 | a line `ParseInt` reads as an integer holds at least one digit, and only digits, blanks and signs |
| Decimal.BlankIsNotInteger | attachGL.py:80 | an empty or all-blank line is not an integer |
| Decimal.StrayCharIsNotInteger | attachGL.py:80 | a line holding any other character, such as "abc", is not an integer under `ParseInt` |
| Decimal.SeparatorIsNotBlank | attachGL.py:80 | the line "\x1c2" is not an integer: `int()` skips only space and tab through carriage return, not the separators U+001C to U+001F |
| Decimal.ParseShow | attachGL.py:80 | typing the decimal text of n, if it has at most 4300 digits, reads back as n |
| Decimal.TooManyDigitsIsNotInteger | attachGL.py:80 | more than 4300 digits are not an integer, even when they denote a small number, such as 4300 zeros then "1". This is CPython's default limit on converting text to int |
| Decimal.ParseMinusDigits | attachGL.py:80 | a minus sign before at most 4300 digits reads as the negated number, which the range check then rejects |
| Decimal.ValueOfShow | attachGL.py:67 | the decimal rendering of a number reads back as that number |
| Decimal.ShowInjective | attachGL.py:123 | two numbers never share a decimal rendering |
| ColumnName.NumberOfLetters | attachGL.py:123 | the letters of a column number read back as that number |
| ColumnName.NameInjective | attachGL.py:123 | distinct columns have distinct names |
| Sheets.SumFormulaInjective | attachGL.py:122-124 | the column and the last row can be read back from a SUM formula, so distinct (column, row) pairs give distinct formulas |
| Sheets.FirstFooterFormula | attachGL.py:122-124 | the footer of the first data row in column A is "SUM(A2:A2)" |
| Sheets.RemoveDollars | attachGL.py:119 | the currency text has no '$'. Every other character keeps its count, and text without '$' is unchanged |
| Sheets.RemoveDollarsSingle | attachGL.py:119 | a lone '$' is dropped, and any other character is kept |
| Sheets.RemoveDollarsConcat | attachGL.py:119 | removing '$' from joined text is removing it from each piece and joining the results in order. With `RemoveDollarsSingle`, this fixes the result as `str.replace(val, '$', '')` does, order included |
| Sheets.RemoveDollarsSample | attachGL.py:19 | the sample's "Net Total" value "$21.55" becomes "21.55" |
| Sheets.HeaderLayout | attachGL.py:139-149 | header row 0 holds the row's column names at columns 0..n-1 and "GL" at column n, and nothing else. Column i is hidden exactly when its name is not a shown one, and is 50 wide exactly when it is "Description" (10 otherwise) |
| Sheets.NewSheet | attachGL.py:135-157 | a new sheet is named after its date, has `row_count` 1, and writes only row 0 |
| Sheets.AppendLayout | attachGL.py:108-130 | after one append at row rc, each cell holds the reference layout `AppendedCell`. The values are in row rc, and a summed column holds a currency number. The GL code is in column len(row). Rows rc+1 and rc+2 are blank under Date and summed columns. Row rc+3 holds "Totals:" under Date and SUM(X2:X{rc+1}) under summed columns. Nothing else is written |
| Sheets.AppendCells | attachGL.py:108-131 | after an append, a cell holds what the append wrote there (`AppendedCell`) if it wrote anything, and otherwise what the sheet held before |
| Sheets.Append | attachGL.py:130-131 | an append grows `row_count` by exactly one, keeps the file name, and only adds calls after the earlier ones |
| Sheets.UpdateWorksheet | attachGL.py:134-159 | only the given date's sheet changes, and the map gains at most that date. Its `row_count` grows by one, from 1 for a new date. A new sheet is named "<date>.xlsx" |
| Sheets.ProcessCounts | attachGL.py:164-171 | after a run, a date has a sheet exactly when it had one or some row carries it. Its `row_count` has grown by exactly the number of rows with that date |
| Sheets.RowCountFromScratch | attachGL.py:100 | from an empty map, a date's `row_count` is one more than its number of rows |
| Sheets.NewSheetFooter | attachGL.py:139-149 | a new sheet has its header cells and column settings, holds no formula, and writes nothing below its footer row |
| Sheets.AppendKeepsHeader | attachGL.py:108-131 | an append writes only below row 0 and sets no column, so the header cells and the column widths and visibility stay as the header made them |
| Sheets.AppendMovesFormulas | attachGL.py:113-128 | after an append, the only formulas are in the new footer row under summed columns. The blanks of the new row overwrite the previous footer |
| Sheets.AppendWritesFooter | attachGL.py:113-128 | after an append, the new footer row holds "Totals:" under the Date column and, under each summed column, the SUM of every data row so far. Every other cell of that row is empty, and nothing is written below it |
| Sheets.AppendFooter | attachGL.py:108-131 | appending a row with the sheet's own column names keeps the sheet footed: the header is kept, the only formulas are the SUMs in the new footer row, and that row holds "Totals:" and SUMs covering all data rows |
| Sheets.UpdateFooter | attachGL.py:134-159 | `updateWorksheet` keeps every sheet of the map footed, for a new date as well as an existing one |
| Sheets.ProcessFooter | attachGL.py:159-170 | over a run whose rows share their column names, every sheet keeps the footer invariant |
| Sheets.FinalFormulas | attachGL.py:117-128 | at the end of a run, a cell holds a formula exactly when it is in the footer row under a summed column. That formula is SUM(X2:X{row_count}), which covers all data rows |
| Sheets.FinalHeaderAndFooter | attachGL.py:134-159 | at the end of a run, each date's sheet still has the header it was opened with (names, "GL", widths, visibility). Its footer row holds "Totals:" under Date and SUM(X2:X{row_count}) under summed columns, and nothing lies below it |
| Sheets.SourceSumsPieces | attachGL.py:25 | as written, "Net", "Total" and the empty name are summed names, as well as "Net Total" |
| Sheets.SourceSumsNetColumn | attachGL.py:117-128 | as written, a column named "Net" or "Total" gets its value turned into a currency number and a SUM formula under it |
| Sheets.IntendedFormulasOnlyUnderNetTotal | attachGL.py:117-128 | with the intended membership, formulas land exactly in row rc+3 under the columns named "Net Total" |
| Sheets.ConfigsAgreeOnShownColumns | attachGL.py:23-25 | on the shown columns, the substring test and the exact test agree |

## Left out

- Reading the CSV (`csv.DictReader`, `open`, `sys.argv`), creating and closing workbooks: this is file I/O. A sheet keeps only its file name, its `row_count` and the log of its calls.
- Printed output other than the menu lines, the description line and the two diagnostics, such as the echoed formula and the "Thanks!" line. These lines are console output only.
- `validate` (attachGL.py:28-31) raises a plain string, which Python 3 itself rejects with a TypeError. It has no error contract worth modelling.
- The main loop's look-ups `row["Date"]` and `row["Description"]` (attachGL.py:164-170): `Sheets.Process` takes rows whose date and GL code are already known. Combining it with `Selection.Choose` is left to the reader of both.
- Selection.ChooseLines: `input()` raising EOFError when the console closes is modelled as the session ending with no choice.
- Decimal.ParseInt: covers ASCII digits, one leading sign and the ASCII blanks `int()` skips (space and tab through carriage return). Underscores between digits, non-ASCII digits and non-ASCII whitespace, which Python's `int()` also accepts, are not modelled. The 4300-digit limit is CPython's default. A limit changed through `sys.set_int_max_str_digits` or `PYTHONINTMAXSTRDIGITS`, and older interpreters with no limit, are not modelled.
- `float(str.replace(val, '$', ''))` (attachGL.py:119): the model keeps the text with '$' removed (`Currency`) and does not parse it as floating point. The ValueError on text that is not a number is not modelled.
- `xl_col_to_name` belongs to xlsxwriter, whose source is not part of this model. `ColumnName.Name` stands in for it with the usual A … Z, AA … naming. The proofs rely on three of its properties: distinct columns get distinct names, a name is made of capital letters only (so it holds no digit, ':' or ')'), and column 0 is "A" (`Sheets.FirstFooterFormula`).
- xlsxwriter's own handling of a written string (empty text written as a blank, "=…" as a formula, URLs as links), the currency format object and the formula's cached value "10". A text cell holds the string it was given.
- Sheets.FinalFormulas, Sheets.FinalHeaderAndFooter, Sheets.ProcessFooter: require that all rows share the same column names, as every row of a single CSV export does. A run mixing headers is not covered.
- Sheets.Footed: covers the header, the formulas and the current footer row. It does not state that the earlier "Totals:" labels were blanked, because a data value may itself read "Totals:". The blanking follows cell by cell from `Sheets.AppendCells`.
- There is no similarity ranking, description cleaning beyond the first-comma cut, or default choice to model, because the script has none.

## Findings

| source | as written | input that shows it | evidently intended | confidence | as-written member | corrected member |
|---|---|---|---|---|---|---|
| attachGL.py:25 | `summed_column_names: tuple[str] = "Net Total"` is a plain string (the trailing comma of a one-element tuple is missing), so `key in summed_column_names` at line 117 tests for a substring | a CSV column named "Net" or "Total", or one with an empty name: its value goes through `float()` and gets a SUM footer | only the column named exactly "Net Total" is summed | medium (the columns of the documented export agree either way); not executed | Sheets.SourceSumsNetColumn | Sheets.IntendedFormulasOnlyUnderNetTotal |

=== FILE: column_name.dfy ===
/**
  Spreadsheet column letters: column 0 is "A", 25 is "Z", 26 is "AA",
  and so on (bijective base 26). This is the naming the SUM formulas of
  the output sheets refer to columns by.
 */
module ColumnName {

  predicate IsLetter(c: char) {
    'A' <= c <= 'Z'
  }

  predicate IsLetters(s: string) {
    forall i :: 0 <= i < |s| ==> IsLetter(s[i])
  }

  function Letter(d: nat): (c: char)
    requires d < 26
    ensures IsLetter(c)
  {
    ('A' as int + d) as char
  }

  /** The letters of the 1-based column number `m`. */
  function Letters(m: nat): (s: string)
    requires m >= 1
    ensures |s| >= 1 && IsLetters(s)
    decreases m
  {
    if m <= 26 then [Letter(m - 1)] else Letters((m - 1) / 26) + [Letter((m - 1) % 26)]
  }

  /** The name of the 0-based column `col`. */
  function Name(col: nat): (s: string)
    ensures |s| >= 1 && IsLetters(s)
  {
    Letters(col + 1)
  }

  /** The 1-based column number that a run of letters names. */
  function Number(s: string): nat
    requires IsLetters(s)
  {
    if |s| == 0 then 0 else Number(s[..|s| - 1]) * 26 + (s[|s| - 1] as int - 'A' as int + 1)
  }

  /** Reading the letters of column number `m` back gives `m`. */
  lemma {:induction false} NumberOfLetters(m: nat)
    requires m >= 1
    ensures Number(Letters(m)) == m
    decreases m
  {
    if m > 26 {
      var s := Letters(m);
      assert s[..|s| - 1] == Letters((m - 1) / 26);
      NumberOfLetters((m - 1) / 26);
    }
  }

  /** Distinct columns have distinct names. */
  lemma NameInjective(a: nat, b: nat)
    ensures Name(a) == Name(b) <==> a == b
  {
    if Name(a) == Name(b) {
      NumberOfLetters(a + 1);
      NumberOfLetters(b + 1);
    }
  }
}

=== FILE: decimal.dfy ===
/**
  Decimal text for integers, as the script meets it in two places: the
  number a Python f-string renders for a natural number (the GL menu
  labels, the row number in a SUM formula), and the integer that Python's
  `int()` reads back from an operator's input line.
 */
module Decimal {
  import opened Wrappers

  predicate IsDigit(c: char) {
    '0' <= c <= '9'
  }

  /** A non-empty run of ASCII digits. */
  predicate IsDigits(s: string) {
    |s| > 0 && forall i :: 0 <= i < |s| ==> IsDigit(s[i])
  }

  /**
    The ASCII blanks `int()` skips around the digits: C's `isspace` set,
    that is space, tab, line feed, vertical tab, form feed and carriage
    return. The separators U+001C to U+001F, which `str.strip()` would
    remove, are not among them.
   */
  predicate IsSpace(c: char) {
    c == ' ' || '\t' <= c <= '\r'
  }

  function DigitValue(c: char): (d: nat)
    requires IsDigit(c)
    ensures d < 10
  {
    (c - '0') as nat
  }

  function DigitChar(d: nat): (c: char)
    requires d < 10
    ensures IsDigit(c) && DigitValue(c) == d
  {
    ('0' as int + d) as char
  }

  /** The decimal text of `n`: digits only, with no leading zero. */
  function Show(n: nat): (s: string)
    ensures IsDigits(s)
    ensures n > 0 ==> s[0] != '0'
    ensures n < 10 <==> |s| == 1
    decreases n
  {
    if n < 10 then [DigitChar(n)] else Show(n / 10) + [DigitChar(n % 10)]
  }

  /** The decimal text of `n` is no longer than `n + 1` characters. */
  lemma {:induction false} ShowLength(n: nat)
    ensures |Show(n)| <= n + 1
    decreases n
  {
    if n >= 10 {
      ShowLength(n / 10);
    }
  }

  /** The number a run of digits denotes, most significant digit first. */
  function Value(s: string): nat
    requires forall i :: 0 <= i < |s| ==> IsDigit(s[i])
  {
    if |s| == 0 then 0 else Value(s[..|s| - 1]) * 10 + DigitValue(s[|s| - 1])
  }

  /** Reading back the text of `n` gives `n`. */
  lemma {:induction false} ValueOfShow(n: nat)
    ensures Value(Show(n)) == n
    decreases n
  {
    if n >= 10 {
      var s := Show(n);
      assert s[..|s| - 1] == Show(n / 10);
      ValueOfShow(n / 10);
    }
  }

  /** `Show` is injective: two numbers never share a text. */
  lemma ShowInjective(m: nat, n: nat)
    ensures Show(m) == Show(n) <==> m == n
  {
    if Show(m) == Show(n) {
      ValueOfShow(m);
      ValueOfShow(n);
    }
  }

  /** Number of leading blanks of `s`. */
  function LeadingSpaces(s: string): (k: nat)
    ensures k <= |s|
    ensures forall i :: 0 <= i < k ==> IsSpace(s[i])
    ensures k < |s| ==> !IsSpace(s[k])
  {
    if |s| > 0 && IsSpace(s[0]) then 1 + LeadingSpaces(s[1..]) else 0
  }

  /** Number of trailing blanks of `s`. */
  function TrailingSpaces(s: string): (k: nat)
    ensures k <= |s|
    ensures forall i :: |s| - k <= i < |s| ==> IsSpace(s[i])
    ensures k < |s| ==> !IsSpace(s[|s| - k - 1])
  {
    if |s| > 0 && IsSpace(s[|s| - 1]) then 1 + TrailingSpaces(s[..|s| - 1]) else 0
  }

  /** `s` without its leading and trailing blanks: the slice of `s` that starts after its leading blanks. */
  function Strip(s: string): (t: string)
    ensures LeadingSpaces(s) + |t| <= |s|
    ensures t == s[LeadingSpaces(s)..LeadingSpaces(s) + |t|]
    ensures forall i :: LeadingSpaces(s) + |t| <= i < |s| ==> IsSpace(s[i])
  {
    var u := s[LeadingSpaces(s)..];
    u[..|u| - TrailingSpaces(u)]
  }

  /** The digits of a stripped line after an optional sign. */
  function Unsigned(t: string): string {
    if |t| > 0 && (t[0] == '+' || t[0] == '-') then t[1..] else t
  }

  /**
    The most digits `int()` converts from decimal text: the default of
    `sys.get_int_max_str_digits()` since CPython 3.11 (and 3.10.7, 3.9.14,
    3.8.14, 3.7.14). Leading zeros count; the sign and blanks do not.
   */
  const MaxStrDigits: nat := 4300

  /**
    Python's `int(line)` for base-10 text: surrounding blanks are ignored,
    a single `+` or `-` may precede the digits, there are at most
    `MaxStrDigits` of them, and anything else is not an integer (`None`,
    where Python raises `ValueError`).
   */
  function ParseInt(line: string): Option<int> {
    var t := Strip(line);
    var body := Unsigned(t);
    if IsDigits(body) && |body| <= MaxStrDigits then
      var v: int := Value(body);
      Some(if t[0] == '-' then -v else v)
    else
      None
  }

  /** A line `int()` reads holds at least one digit, and nothing but digits, blanks and signs. */
  lemma ReadableChars(line: string)
    requires ParseInt(line).Some?
    ensures exists i :: 0 <= i < |line| && IsDigit(line[i])
    ensures forall i :: 0 <= i < |line| ==>
      IsDigit(line[i]) || IsSpace(line[i]) || line[i] == '+' || line[i] == '-'
  {
    var a := LeadingSpaces(line);
    var t := Strip(line);
    var body := Unsigned(t);
    assert body[|body| - 1] == t[|t| - 1];
    assert line[a + |t| - 1] == t[|t| - 1];
    forall i | 0 <= i < |line|
      ensures IsDigit(line[i]) || IsSpace(line[i]) || line[i] == '+' || line[i] == '-'
    {
      if a <= i < a + |t| {
        assert line[i] == t[i - a];
        if body != t {
          assert i - a == 0 || t[i - a] == body[i - a - 1];
        } else {
          assert t[i - a] == body[i - a];
        }
      }
    }
  }

  /** The empty line, or one of blanks only, is not an integer. */
  lemma BlankIsNotInteger(line: string)
    requires forall i :: 0 <= i < |line| ==> IsSpace(line[i])
    ensures ParseInt(line) == None
  {
    if ParseInt(line).Some? {
      ReadableChars(line);
      assert false;
    }
  }

  /** A line holding a character that is no digit, blank or sign is not an integer. */
  lemma StrayCharIsNotInteger(line: string, i: nat)
    requires i < |line|
    requires !(IsDigit(line[i]) || IsSpace(line[i]) || line[i] == '+' || line[i] == '-')
    ensures ParseInt(line) == None
  {
    if ParseInt(line).Some? {
      ReadableChars(line);
      assert false;
    }
  }

  /** An information separator before the digits is not skipped: the line is not an integer. */
  lemma SeparatorIsNotBlank()
    ensures ParseInt("\U{1C}2") == None
  {
    StrayCharIsNotInteger("\U{1C}2", 0);
  }

  /** A line with no blank at either end is left as it is by `Strip`. */
  lemma StripUnpadded(s: string)
    requires |s| > 0 && !IsSpace(s[0]) && !IsSpace(s[|s| - 1])
    ensures Strip(s) == s
  {
    assert LeadingSpaces(s) == 0;
    assert TrailingSpaces(s) == 0;
  }

  /** Digits beyond the conversion limit are not an integer, even when they denote a small number. */
  lemma TooManyDigitsIsNotInteger(d: string)
    requires IsDigits(d) && |d| > MaxStrDigits
    ensures ParseInt(d) == None
  {
    StripUnpadded(d);
  }

  /** Typing the decimal text of `n` reads back as `n`, when it is within the conversion limit. */
  lemma ParseShow(n: nat)
    requires |Show(n)| <= MaxStrDigits
    ensures ParseInt(Show(n)) == Some(n)
  {
    StripUnpadded(Show(n));
    ValueOfShow(n);
  }

  /** A minus sign followed by digits reads as the negated digits. */
  lemma ParseMinusDigits(d: string)
    requires IsDigits(d) && |d| <= MaxStrDigits
    ensures ParseInt(['-'] + d) == Some(-(Value(d) as int))
  {
    var s := ['-'] + d;
    assert s[|s| - 1] == d[|d| - 1];
    StripUnpadded(s);
    assert Unsigned(s) == d;
  }
}

=== FILE: ledger.dfy ===
/** The general-ledger (GL) categories an operator picks from. */
module Ledger {

  /** One GL category: its accounting code and its display name. */
  datatype GL = GL(id: string, name: string)

  /** The hard-coded categories, in the order they are offered (choice 1 first). */
  const Gls: seq<GL> := [
    GL("411601512", "Printmaking"),
    GL("411601514", "Color Processor"),
    GL("411601521", "Hot Glass"),
    GL("411601523", "Flat Glass"),
    GL("411601524", "Flameworking"),
    GL("411601531", "Wood"),
    GL("411601534", "Blacksmithing/Forgin"),
    GL("411601535", "Fabrication"),
    GL("411601540", "Jewelry"),
    GL("411601522", "Coldworking"),
    GL("411601350100", "2D"),
    GL("411601530", "Sculpture")
  ]

  /** Twelve categories, no two sharing a code or a name. */
  lemma TableShape()
    ensures |Gls| == 12
    ensures forall i, j :: 0 <= i < j < |Gls| ==> Gls[i].id != Gls[j].id && Gls[i].name != Gls[j].name
  {
  }
}

=== FILE: selection.dfy ===
/**
  Choosing a GL category for one transaction (`getGL`): the menu of
  categories, the description line shown above it, and the prompt loop
  that reads lines until one names a category by its menu number.

  The operator's lines are a scripted sequence; each is read as Python's
  `int()` reads it (`Decimal.ParseInt`), or is given already read. A
  session either ends with a category or runs out of lines, and in both
  cases reports the diagnostics printed on the way.
 */
module Selection {
  import opened Wrappers
  import opened Ledger
  import Decimal
  import Text

  /** The description line shown to the operator: its first comma-separated field. */
  function Shown(description: string): (r: string)
    ensures |r| <= |description|
    ensures r == description[..|r|]
    ensures ',' !in r
    ensures |r| < |description| ==> description[|r|] == ','
  {
    Text.Split(description, ',')[0]
  }

  /** The description field of the sample transaction in the header comment of the script. */
  const SampleDescription: string := SampleHead + "," + SampleTail

  /** The fields after the first comma of `SampleDescription`. */
  const SampleTail: string := " Sat 11/12 6:00pm, full name: FOO BAR, phone: 2175551212, email: foo.bar@outlook.com"

  /**
    The leading field of `SampleDescription`. It is written as three
    literals joined so that the absence of a comma can be checked piece by
    piece; the verifier does not settle it for one long literal.
   */
  const SampleHead: string := "Custom Amount - " + "Reservation for " + "Fabrication Access PM"

  /** Only the part before the first comma is shown; no other cleaning happens. */
  lemma ShownSample()
    ensures Shown(SampleDescription) == SampleHead
  {
    assert ',' !in "Custom Amount - " && ',' !in "Reservation for " && ',' !in "Fabrication Access PM";
    Text.BeforeConcat(SampleHead, ',', SampleTail);
  }

  /** The menu line offering the category at 0-based position `i`. */
  function MenuLine(i: nat): string
    requires i < |Gls|
  {
    Labelled(i + 1, Gls[i].name)
  }

  /** A menu line: the number `n` in brackets, a space, then `name`. */
  function Labelled(n: nat, name: string): string {
    "[" + Decimal.Show(n) + "] " + name
  }

  /** The text between the opening `[` of a menu line and the first `]`. */
  function Label(line: string): string {
    if |line| == 0 then "" else Text.Before(line[1..], ']')
  }

  const NotAnIntegerMessage: string := "Input must be an integer.  Try again"

  function OutOfRangeMessage(): string {
    "Value must be between 1 and " + Decimal.Show(|Gls|) + ", inclusive"
  }

  /** The range diagnostic names the bounds of the twelve-entry menu. */
  lemma OutOfRangeText()
    ensures OutOfRangeMessage() == "Value must be between 1 and 12, inclusive"
  {
    assert Decimal.Show(12) == Decimal.Show(1) + [Decimal.DigitChar(2)] == "12";
  }

  /** What one input line amounts to. */
  datatype Verdict = Chosen(gl: GL) | OutOfRange(val: int) | NotAnInteger {

    /** The line printed for a rejected input. */
    function Diagnostic(): string
      requires !Chosen?
    {
      if NotAnInteger? then NotAnIntegerMessage else OutOfRangeMessage()
    }
  }

  /** A menu number: an integer between 1 and the number of categories, inclusive. */
  predicate InRange(val: int) {
    1 <= val <= |Gls|
  }

  /** The verdict on one line, given as the integer it reads as (`None` when it is not one). */
  function Judge(input: Option<int>): (v: Verdict)
    ensures v.Chosen? <==> input.Some? && InRange(input.value)
    ensures v.NotAnInteger? <==> input.None?
    ensures v.Chosen? ==> v.gl == Gls[input.value - 1]
  {
    match input
    case None => NotAnInteger
    case Some(val) => if InRange(val) then Chosen(Gls[val - 1]) else OutOfRange(val)
  }

  /** The integers the menu shows as labels, read as the prompt reads them. */
  function MenuNumbers(): (ns: seq<Option<int>>)
    ensures |ns| == |Gls|
    ensures forall i :: 0 <= i < |Gls| ==> ns[i] == Decimal.ParseInt(Label(MenuLine(i)))
  {
    seq(|Gls|, i requires 0 <= i < |Gls| => Decimal.ParseInt(Label(MenuLine(i))))
  }

  /** The label of a line "[digits]rest" is its digits. */
  lemma LabelOfBracketed(digits: string, rest: string)
    requires Decimal.IsDigits(digits)
    ensures Label("[" + digits + "]" + rest) == digits
  {
    var line := "[" + digits + "]" + rest;
    assert line[1..] == digits + [']'] + rest;
    assert ']' !in digits by {
      forall k | 0 <= k < |digits| ensures digits[k] != ']' {
        assert Decimal.IsDigit(digits[k]);
      }
    }
    Text.BeforeConcat(digits, ']', rest);
  }

  /** The label of a menu line numbered `n` reads as `n`. */
  lemma LabelledReadsBack(n: nat, name: string)
    requires n < Decimal.MaxStrDigits
    ensures Decimal.ParseInt(Label(Labelled(n, name))) == Some(n)
  {
    var digits := Decimal.Show(n);
    assert Labelled(n, name) == "[" + digits + "]" + (" " + name);
    LabelOfBracketed(digits, " " + name);
    Decimal.ShowLength(n);
    Decimal.ParseShow(n);
  }

  /** The label of menu line `i` reads as the integer `i + 1`. */
  lemma LabelReadsBack(i: nat)
    requires i < |Gls|
    ensures Decimal.ParseInt(Label(MenuLine(i))) == Some(i + 1)
  {
    LabelledReadsBack(i + 1, Gls[i].name);
  }

  /**
    An integer is accepted exactly when some menu line carries it as its
    label, and the category chosen is the one on that line.
   */
  lemma AcceptedAreMenuNumbers(val: int)
    ensures Judge(Some(val)).Chosen? <==> Some(val) in MenuNumbers()
    ensures forall i :: 0 <= i < |Gls| && MenuNumbers()[i] == Some(val) ==> Judge(Some(val)) == Chosen(Gls[i])
  {
    var ns := MenuNumbers();
    forall i | 0 <= i < |Gls|
      ensures ns[i] == Some(i + 1)
    {
      LabelReadsBack(i);
    }
    if InRange(val) {
      assert ns[val - 1] == Some(val);
    }
  }

  /** The outcome of one prompt session: the category chosen, if any, and the diagnostics printed. */
  datatype Session = Session(chosen: Option<GL>, diagnostics: seq<string>)

  predicate Accepts(input: Option<int>) {
    Judge(input).Chosen?
  }

  /**
    `s` is the outcome of prompting through `inputs`: every input before
    the first accepted one was rejected with its own diagnostic, the
    accepted one (at position `|s.diagnostics|`) gives the category, and
    when none is accepted every input was rejected.
   */
  predicate Describes(inputs: seq<Option<int>>, s: Session) {
    && |s.diagnostics| <= |inputs|
    && (forall j :: 0 <= j < |s.diagnostics| ==>
          !Accepts(inputs[j]) && s.diagnostics[j] == Judge(inputs[j]).Diagnostic())
    && (s.chosen.None? ==> |s.diagnostics| == |inputs|)
    && (s.chosen.Some? ==> |s.diagnostics| < |inputs| && Judge(inputs[|s.diagnostics|]) == Chosen(s.chosen.value))
  }

  /** At most one session outcome fits a given input sequence. */
  lemma DescribesUnique(inputs: seq<Option<int>>, s: Session, t: Session)
    requires Describes(inputs, s) && Describes(inputs, t)
    ensures s == t
  {
    if |s.diagnostics| < |t.diagnostics| {
      assert false;
    } else if |t.diagnostics| < |s.diagnostics| {
      assert false;
    }
    assert s.diagnostics == t.diagnostics;
  }

  /** The prompt loop over pre-read inputs: stop at the first accepted one. */
  function Choose(inputs: seq<Option<int>>): (s: Session)
    ensures |s.diagnostics| <= |inputs|
    ensures s.chosen.None? ==> |s.diagnostics| == |inputs|
  {
    if |inputs| == 0 then
      Session(None, [])
    else
      match Judge(inputs[0])
      case Chosen(gl) => Session(Some(gl), [])
      case v =>
        var rest := Choose(inputs[1..]);
        Session(rest.chosen, [v.Diagnostic()] + rest.diagnostics)
  }

  /** `Choose` stops at the first accepted input, having rejected every earlier one. */
  lemma {:induction false} ChooseDescribes(inputs: seq<Option<int>>)
    ensures Describes(inputs, Choose(inputs))
    decreases |inputs|
  {
    if |inputs| > 0 && !Accepts(inputs[0]) {
      var rest := inputs[1..];
      ChooseDescribes(rest);
      var s := Choose(inputs);
      assert forall j :: 1 <= j < |s.diagnostics| ==> s.diagnostics[j] == Choose(rest).diagnostics[j - 1];
    }
  }

  /** When `Choose` picks a category, the input that picked it is the menu number `v` of category `v`, counting from 1. */
  lemma ChooseChosen(inputs: seq<Option<int>>)
    ensures var s := Choose(inputs);
      s.chosen.Some? ==>
        |s.diagnostics| < |inputs| && inputs[|s.diagnostics|].Some?
        && InRange(inputs[|s.diagnostics|].value) && s.chosen.value == Gls[inputs[|s.diagnostics|].value - 1]
  {
    ChooseDescribes(inputs);
  }

  /**
    The prompt loop over raw input lines, each read by `int()`: the session
    stops at the first line that reads as a menu number, after one
    diagnostic per earlier line (`ChooseLinesChosen` says which category
    it returns).
   */
  function ChooseLines(lines: seq<string>): (s: Session)
    ensures Describes(ReadLines(lines), s)
    ensures s.chosen.Some? ==> |s.diagnostics| < |lines| && Decimal.ParseInt(lines[|s.diagnostics|]).Some?
  {
    var inputs := ReadLines(lines);
    ChooseDescribes(inputs);
    Choose(inputs)
  }

  /** The line that picks a category reads as a menu number `v`, and the category is the `v`-th, counting from 1. */
  lemma ChooseLinesChosen(lines: seq<string>)
    ensures var s := ChooseLines(lines);
      s.chosen.Some? ==>
        var v := Decimal.ParseInt(lines[|s.diagnostics|]).value;
        InRange(v) && s.chosen.value == Gls[v - 1]
  {
    var inputs := ReadLines(lines);
    ChooseChosen(inputs);
  }

  /** Prompting through lines is prompting through what `int()` reads from them. */
  lemma ChooseLinesRead(lines: seq<string>, inputs: seq<Option<int>>)
    requires ReadLines(lines) == inputs
    ensures ChooseLines(lines) == Choose(inputs)
  {
  }

  /** Each line as `int()` reads it. */
  function ReadLines(lines: seq<string>): (inputs: seq<Option<int>>)
    ensures |inputs| == |lines|
    ensures forall i :: 0 <= i < |lines| ==> inputs[i] == Decimal.ParseInt(lines[i])
  {
    seq(|lines|, i requires 0 <= i < |lines| => Decimal.ParseInt(lines[i]))
  }

  /**
    Prompting through `a` and then `b` is prompting through `a` alone when
    `a` already chose; otherwise the session carries on into `b`, keeping
    the diagnostics printed for `a`.
   */
  lemma {:induction false} ChooseConcat(a: seq<Option<int>>, b: seq<Option<int>>)
    ensures Choose(a).chosen.Some? ==> Choose(a + b) == Choose(a)
    ensures Choose(a).chosen.None? ==>
      Choose(a + b) == Session(Choose(b).chosen, Choose(a).diagnostics + Choose(b).diagnostics)
    decreases |a|
  {
    if |a| == 0 {
      assert a + b == b;
    } else {
      assert (a + b)[0] == a[0];
      assert (a + b)[1..] == a[1..] + b;
      ChooseConcat(a[1..], b);
    }
  }

  /** The prompt loop as the script runs it: read, check, and either return or complain and read again. */
  method Prompt(inputs: seq<Option<int>>) returns (chosen: Option<GL>, diagnostics: seq<string>)
    ensures Describes(inputs, Session(chosen, diagnostics))
    ensures Session(chosen, diagnostics) == Choose(inputs)
  {
    chosen := None;
    diagnostics := [];
    var k := 0;
    while k < |inputs|
      invariant k == |diagnostics| <= |inputs|
      invariant forall j :: 0 <= j < k ==> !Accepts(inputs[j]) && diagnostics[j] == Judge(inputs[j]).Diagnostic()
    {
      var verdict := Judge(inputs[k]);
      if verdict.Chosen? {
        chosen := Some(verdict.gl);
        ChooseDescribes(inputs);
        DescribesUnique(inputs, Session(chosen, diagnostics), Choose(inputs));
        return;
      }
      diagnostics := diagnostics + [verdict.Diagnostic()];
      k := k + 1;
    }
    ChooseDescribes(inputs);
    DescribesUnique(inputs, Session(chosen, diagnostics), Choose(inputs));
  }

  lemma ReadThree(a: string, b: string, c: string)
    ensures ReadLines([a, b, c]) == [Decimal.ParseInt(a), Decimal.ParseInt(b), Decimal.ParseInt(c)]
  {
    var lines := [a, b, c];
    assert lines[0] == a && lines[1] == b && lines[2] == c;
  }

  /** The three lines of `ScriptedSession`, one by one. */
  lemma ReadsNinetyNine()
    ensures Decimal.ParseInt("99") == Some(99)
  {
    Decimal.ShowLength(99);
    Decimal.ParseShow(99);
    assert Decimal.Show(99) == "99";
  }

  lemma ReadsTwo()
    ensures Decimal.ParseInt("2") == Some(2)
  {
    Decimal.ShowLength(2);
    Decimal.ParseShow(2);
    assert Decimal.Show(2) == "2";
  }

  lemma ReadsAbc()
    ensures Decimal.ParseInt("abc") == None
  {
    Decimal.StrayCharIsNotInteger("abc", 0);
  }

  /** The lines of `ScriptedSession`, as the prompt reads them. */
  lemma ReadsScript()
    ensures ReadLines(["abc", "99", "2"]) == [None, Some(99), Some(2)]
  {
    ReadThree("abc", "99", "2");
    ReadsAbc();
    ReadsNinetyNine();
    ReadsTwo();
  }

  /** The pre-read inputs of `ScriptedSession`: a non-integer, 99, then 2. */
  lemma ScriptedInputs()
    ensures Choose([None, Some(99), Some(2)]) == Session(Some(Gls[1]), [NotAnIntegerMessage, OutOfRangeMessage()])
  {
    var ins: seq<Option<int>> := [None, Some(99), Some(2)];
    assert ins[1..][1..] == [Some(2)];
    assert Choose(ins[1..]) == Session(Some(Gls[1]), [OutOfRangeMessage()]);
  }

  /**
    A non-integer line ("abc"), then an out-of-range integer ("99"), then a
    menu number ("2"): two diagnostics, then the second category.
   */
  lemma ScriptedSession()
    ensures ChooseLines(["abc", "99", "2"]) == Session(Some(Gls[1]), [NotAnIntegerMessage, OutOfRangeMessage()])
  {
    ReadsScript();
    ChooseLinesRead(["abc", "99", "2"], [None, Some(99), Some(2)]);
    ScriptedInputs();
  }

  /** An empty line chooses nothing: there is no default, only a diagnostic. */
  lemma EmptyLineHasNoDefault()
    ensures ChooseLines([""]) == Session(None, [NotAnIntegerMessage])
  {
    Decimal.BlankIsNotInteger("");
    assert ReadLines([""]) == [None];
  }
}

=== FILE: sheets.dfy ===
/**
  The per-date output sheets (`updateWorksheet`, `appendWorksheetRow`).

  Each date gets its own workbook with one worksheet. The first row seen
  for a date writes a header row (the row's column names, then "GL") and
  sets every column's width and visibility; every row then writes its
  values at the sheet's `row_count`, the chosen GL code after them, and a
  running footer three rows further down: blanks, a "Totals:" label under
  the Date column and a SUM formula under each summed column. The next row
  overwrites that footer, so the last one written is the one that stays.

  A worksheet is modelled as the ordered log of the calls made on it;
  `CellAt` reads off what a cell ends up holding (the last write wins).
 */
module Sheets {
  import opened Wrappers
  import Decimal
  import ColumnName
  import Text

  /** One transaction row: (column name, text value) pairs in the export's column order. */
  type Row = seq<(string, string)>

  /** The column names of `row`, in order. */
  function Keys(row: Row): (keys: seq<string>)
    ensures |keys| == |row|
    ensures forall i :: 0 <= i < |row| ==> keys[i] == row[i].0
  {
    seq(|row|, i requires 0 <= i < |row| => row[i].0)
  }

  /** What a cell is given. */
  datatype Content =
      /** a string, as `write` is given it */
    | Str(text: string)
      /** the number `float()` reads from `amount`, in the currency format */
    | Currency(amount: string)
      /** a formula, as `write_formula` is given it */
    | Formula(formula: string)

  /** One call on a worksheet. */
  datatype SheetOp =
    | Write(row: nat, col: nat, content: Content)
    | SetColumn(col: nat, width: nat, hidden: bool)

  /** Width and visibility of a column. */
  datatype ColumnSpec = ColumnSpec(width: nat, hidden: bool)

  /** A date's workbook: its file name, the next row to fill, and the calls made on its worksheet. */
  datatype Sheet = Sheet(fileName: string, rowCount: nat, ops: seq<SheetOp>)

  /** The workbooks opened so far, by date. */
  type Book = map<string, Sheet>

  /** Which columns are left visible, and which are summed. */
  datatype Config = Config(shown: set<string>, summed: set<string>)

  const ShownColumns: set<string> := {"Date", "Card", "Fees", "Net Total", "Description"}

  /** Every contiguous piece of `s`, the empty one included. */
  function Substrings(s: string): set<string> {
    set i, j | 0 <= i <= j <= |s| :: s[i..j]
  }

  /**
    The configuration as the script writes it. The summed names are the
    bare string "Net Total", not a one-element tuple, so membership is a
    substring test.
   */
  const SourceConfig: Config := Config(ShownColumns, Substrings("Net Total"))

  /** The configuration the names were evidently meant to give: only "Net Total" is summed. */
  const IntendedConfig: Config := Config(ShownColumns, {"Net Total"})

  /** `s` with every '$' taken out, the text the currency value is read from. */
  function RemoveDollars(s: string): (r: string)
    ensures '$' !in r
    ensures |r| <= |s|
    ensures '$' !in s ==> r == s
    ensures forall c :: c != '$' ==> multiset(r)[c] == multiset(s)[c]
  {
    if |s| == 0 then []
    else
      assert s == [s[0]] + s[1..];
      (if s[0] == '$' then [] else [s[0]]) + RemoveDollars(s[1..])
  }

  /** A lone '$' is dropped; any other character is kept. */
  lemma RemoveDollarsSingle(ch: char)
    ensures RemoveDollars([ch]) == if ch == '$' then [] else [ch]
  {
    assert [ch][1..] == [];
  }

  /**
    Removing the '$' signs works piece by piece and keeps the pieces in
    order; with `RemoveDollarsSingle` this fixes the result for every text,
    as `str.replace(val, '$', '')` does.
   */
  lemma {:induction false} RemoveDollarsConcat(a: string, b: string)
    ensures RemoveDollars(a + b) == RemoveDollars(a) + RemoveDollars(b)
    decreases |a|
  {
    if |a| == 0 {
      assert a + b == b;
    } else {
      assert (a + b)[0] == a[0];
      assert (a + b)[1..] == a[1..] + b;
      RemoveDollarsConcat(a[1..], b);
    }
  }

  /** The "Net Total" value of the sample transaction, ready for `float()`. */
  lemma RemoveDollarsSample()
    ensures RemoveDollars("$21.55") == "21.55"
  {
    RemoveDollarsConcat("$", "21.55");
    RemoveDollarsSingle('$');
  }

  /**
    The footer formula of column `col` when the row was written at row
    `rc`: `SUM(X2:X{rc+1})` in the sheet's 1-based row numbers, that is
    every row from the first row under the header to the row just written.
   */
  function SumFormula(col: nat, rc: nat): string {
    var name := ColumnName.Name(col);
    "SUM(" + name + "2:" + name + Decimal.Show(rc + 1) + ")"
  }

  /** The column name is the text between "SUM(" and the first '2'. */
  lemma FormulaColumnOf(c: nat, r: nat)
    ensures Text.Before(SumFormula(c, r)[4..], '2') == ColumnName.Name(c)
  {
    var name := ColumnName.Name(c);
    var tail := ":" + name + Decimal.Show(r + 1) + ")";
    assert SumFormula(c, r)[4..] == name + ['2'] + tail;
    LettersHaveNo(name, '2');
    Text.BeforeConcat(name, '2', tail);
  }

  /** The last row number is the text after the second column name, up to the ')'. */
  lemma FormulaRowOf(c: nat, r: nat)
    ensures 6 + 2 * |ColumnName.Name(c)| <= |SumFormula(c, r)|
    ensures Text.Before(SumFormula(c, r)[6 + 2 * |ColumnName.Name(c)|..], ')') == Decimal.Show(r + 1)
  {
    var digits := Decimal.Show(r + 1);
    assert SumFormula(c, r)[6 + 2 * |ColumnName.Name(c)|..] == digits + [')'] + [];
    DigitsHaveNo(digits, ')');
    Text.BeforeConcat(digits, ')', []);
  }

  /** Distinct columns, or distinct rows, get distinct SUM formulas. */
  lemma SumFormulaInjective(c1: nat, r1: nat, c2: nat, r2: nat)
    ensures SumFormula(c1, r1) == SumFormula(c2, r2) <==> c1 == c2 && r1 == r2
  {
    if SumFormula(c1, r1) == SumFormula(c2, r2) {
      FormulaColumnOf(c1, r1);
      FormulaColumnOf(c2, r2);
      ColumnName.NameInjective(c1, c2);
      FormulaRowOf(c1, r1);
      FormulaRowOf(c2, r2);
      Decimal.ShowInjective(r1 + 1, r2 + 1);
    }
  }

  lemma LettersHaveNo(s: string, c: char)
    requires ColumnName.IsLetters(s) && !ColumnName.IsLetter(c)
    ensures c !in s
  {
  }

  lemma DigitsHaveNo(s: string, c: char)
    requires Decimal.IsDigits(s) && !Decimal.IsDigit(c)
    ensures c !in s
  {
  }
  // ---------------------------------------------------------------------
  // Reading a worksheet's call log

  /** What cell (`r`, `c`) holds after the calls `ops`: the content of the last write to it. */
  function CellAt(ops: seq<SheetOp>, r: nat, c: nat): (cell: Option<Content>)
    ensures cell.Some? ==> Write(r, c, cell.value) in ops
  {
    if |ops| == 0 then None
    else
      var last := ops[|ops| - 1];
      if last.Write? && last.row == r && last.col == c then Some(last.content)
      else CellAt(ops[..|ops| - 1], r, c)
  }

  /** Width and visibility of column `c` after the calls `ops`: the last setting made for it. */
  function ColumnAt(ops: seq<SheetOp>, c: nat): (spec: Option<ColumnSpec>)
    ensures spec.Some? ==> SetColumn(c, spec.value.width, spec.value.hidden) in ops
  {
    if |ops| == 0 then None
    else
      var last := ops[|ops| - 1];
      if last.SetColumn? && last.col == c then Some(ColumnSpec(last.width, last.hidden))
      else ColumnAt(ops[..|ops| - 1], c)
  }

  /** Later calls win: a cell written by `b` holds what `b` wrote, otherwise what `a` left. */
  lemma {:induction false} CellAtConcat(a: seq<SheetOp>, b: seq<SheetOp>, r: nat, c: nat)
    ensures CellAt(a + b, r, c) == if CellAt(b, r, c).Some? then CellAt(b, r, c) else CellAt(a, r, c)
    decreases |b|
  {
    if |b| == 0 {
      assert a + b == a;
    } else {
      assert (a + b)[..|a + b| - 1] == a + b[..|b| - 1];
      CellAtConcat(a, b[..|b| - 1], r, c);
    }
  }

  /** Later calls win for column settings too. */
  lemma {:induction false} ColumnAtConcat(a: seq<SheetOp>, b: seq<SheetOp>, c: nat)
    ensures ColumnAt(a + b, c) == if ColumnAt(b, c).Some? then ColumnAt(b, c) else ColumnAt(a, c)
    decreases |b|
  {
    if |b| == 0 {
      assert a + b == a;
    } else {
      assert (a + b)[..|a + b| - 1] == a + b[..|b| - 1];
      ColumnAtConcat(a, b[..|b| - 1], c);
    }
  }

  predicate IsFormula(cell: Option<Content>) {
    cell.Some? && cell.value.Formula?
  }

  // ---------------------------------------------------------------------
  // The header row (`updateWorksheet`, first row of a date)

  /** Column width: wide for the description, narrow for everything else. */
  function Width(key: string): nat {
    if key == "Description" then 50 else 10
  }

  /** For each column from `i` on: its name in row 0, then its width and visibility. */
  function HeaderFrom(cfg: Config, keys: seq<string>, i: nat): (ops: seq<SheetOp>)
    ensures forall k :: 0 <= k < |ops| && ops[k].Write? ==> ops[k].row == 0 && i <= ops[k].col < i + |keys|
    ensures forall k :: 0 <= k < |ops| && ops[k].SetColumn? ==> i <= ops[k].col < i + |keys|
    decreases |keys|
  {
    if |keys| == 0 then []
    else
      [Write(0, i, Str(keys[0])), SetColumn(i, Width(keys[0]), keys[0] !in cfg.shown)]
      + HeaderFrom(cfg, keys[1..], i + 1)
  }

  /** The header of a new sheet: the column names, then "GL" after the last one. */
  function HeaderOps(cfg: Config, keys: seq<string>): seq<SheetOp> {
    HeaderFrom(cfg, keys, 0) + [Write(0, |keys|, Str("GL"))]
  }

  /** Row 0 of `HeaderFrom`'s calls holds the names from column `i` on, and nothing else is written. */
  lemma {:induction false} HeaderFromCells(cfg: Config, keys: seq<string>, i: nat, r: nat, c: nat)
    ensures CellAt(HeaderFrom(cfg, keys, i), r, c)
      == if r == 0 && i <= c < i + |keys| then Some(Str(keys[c - i])) else None
    decreases |keys|
  {
    if |keys| > 0 {
      var w := Write(0, i, Str(keys[0]));
      var first := [w, SetColumn(i, Width(keys[0]), keys[0] !in cfg.shown)];
      HeaderFromCells(cfg, keys[1..], i + 1, r, c);
      CellAtConcat(first, HeaderFrom(cfg, keys[1..], i + 1), r, c);
      assert first[..1] == [w];
      CellOfSingle(w, r, c);
    }
  }

  /** `HeaderFrom` sets the width and visibility of each column from `i` on, and of no other. */
  lemma {:induction false} HeaderFromColumns(cfg: Config, keys: seq<string>, i: nat, c: nat)
    ensures ColumnAt(HeaderFrom(cfg, keys, i), c)
      == if i <= c < i + |keys| then Some(ColumnSpec(Width(keys[c - i]), keys[c - i] !in cfg.shown)) else None
    decreases |keys|
  {
    if |keys| > 0 {
      var first := [Write(0, i, Str(keys[0])), SetColumn(i, Width(keys[0]), keys[0] !in cfg.shown)];
      HeaderFromColumns(cfg, keys[1..], i + 1, c);
      ColumnAtConcat(first, HeaderFrom(cfg, keys[1..], i + 1), c);
      assert first[..1][..0] == [];
    }
  }

  /**
    A new sheet's header: column `c` of row 0 holds the row's `c`-th
    column name, the column after the last holds "GL"; each named column
    is 50 wide if it is the description and 10 otherwise, and is hidden
    exactly when its name is not a shown one.
   */
  lemma HeaderLayout(cfg: Config, keys: seq<string>, r: nat, c: nat)
    ensures CellAt(HeaderOps(cfg, keys), r, c) == if r == 0 then HeaderCell(keys, c) else None
    ensures ColumnAt(HeaderOps(cfg, keys), c) == HeaderColumn(cfg, keys, c)
  {
    HeaderFromCells(cfg, keys, 0, r, c);
    HeaderFromColumns(cfg, keys, 0, c);
    CellAtConcat(HeaderFrom(cfg, keys, 0), [Write(0, |keys|, Str("GL"))], r, c);
    ColumnAtConcat(HeaderFrom(cfg, keys, 0), [Write(0, |keys|, Str("GL"))], c);
    CellOfSingle(Write(0, |keys|, Str("GL")), r, c);
    assert [Write(0, |keys|, Str("GL"))][..0] == [];
  }

  // ---------------------------------------------------------------------
  // One appended row (`appendWorksheetRow`)

  /** The calls `appendWorksheetRow` makes for column `i` holding (`key`, `val`), the row being written at `rc`. */
  function ColumnOps(cfg: Config, rc: nat, i: nat, key: string, val: string): seq<SheetOp> {
    [Write(rc, i, Str(val))]
    + (if key == "Date" then [Write(rc + 1, i, Str(" ")), Write(rc + 2, i, Str(" ")), Write(rc + 3, i, Str("Totals:"))]
       else [])
    + (if key in cfg.summed then
         [Write(rc, i, Currency(RemoveDollars(val))), Write(rc + 1, i, Str(" ")), Write(rc + 2, i, Str(" ")),
          Write(rc + 3, i, Formula(SumFormula(i, rc)))]
       else [])
  }

  /** The calls for the columns of `row`, the first of them being column `i`. */
  function CellsFrom(cfg: Config, rc: nat, row: Row, i: nat): (ops: seq<SheetOp>)
    ensures forall k :: 0 <= k < |ops| ==>
      ops[k].Write? && rc <= ops[k].row <= rc + 3 && i <= ops[k].col < i + |row|
    decreases |row|
  {
    if |row| == 0 then []
    else ColumnOps(cfg, rc, i, row[0].0, row[0].1) + CellsFrom(cfg, rc, row[1..], i + 1)
  }

  /** All calls of one append at row `rc`: the columns of `row`, then the GL code after them. */
  function AppendOps(cfg: Config, rc: nat, row: Row, gl: string): (ops: seq<SheetOp>)
    ensures forall k :: 0 <= k < |ops| ==>
      ops[k].Write? && rc <= ops[k].row <= rc + 3 && ops[k].col <= |row|
  {
    CellsFrom(cfg, rc, row, 0) + [Write(rc, |row|, Str(gl))]
  }

  /**
    What an append leaves in row `r` of column `i` holding (`key`, `val`):
    the value at `rc` (as a currency number when summed); under a summed
    column two blanks and the SUM formula; under the Date column two blanks
    and "Totals:"; nothing under other columns.
   */
  function ColumnCell(cfg: Config, rc: nat, i: nat, key: string, val: string, r: nat): Option<Content> {
    var summed := key in cfg.summed;
    if r == rc then
      Some(if summed then Currency(RemoveDollars(val)) else Str(val))
    else if r == rc + 1 || r == rc + 2 then
      if summed || key == "Date" then Some(Str(" ")) else None
    else if r == rc + 3 then
      if summed then Some(Formula(SumFormula(i, rc)))
      else if key == "Date" then Some(Str("Totals:"))
      else None
    else None
  }

  /** What an append of `row` with GL code `gl` at row `rc` leaves in cell (`r`, `c`). */
  function AppendedCell(cfg: Config, rc: nat, row: Row, gl: string, r: nat, c: nat): Option<Content> {
    if c < |row| then ColumnCell(cfg, rc, c, row[c].0, row[c].1, r)
    else if c == |row| && r == rc then Some(Str(gl))
    else None
  }

  lemma CellOfSingle(op: SheetOp, r: nat, c: nat)
    ensures CellAt([op], r, c) == if op.Write? && op.row == r && op.col == c then Some(op.content) else None
  {
    assert [op][..0] == [];
  }

  /** The calls of one column leave exactly `ColumnCell` in that column and touch no other. */
  lemma ColumnOpsLayout(cfg: Config, rc: nat, i: nat, key: string, val: string, r: nat, c: nat)
    ensures CellAt(ColumnOps(cfg, rc, i, key, val), r, c)
      == if c == i then ColumnCell(cfg, rc, i, key, val, r) else None
  {
    var w := [Write(rc, i, Str(val))];
    var d := if key == "Date" then [Write(rc + 1, i, Str(" ")), Write(rc + 2, i, Str(" ")), Write(rc + 3, i, Str("Totals:"))]
             else [];
    var n := if key in cfg.summed then
               [Write(rc, i, Currency(RemoveDollars(val))), Write(rc + 1, i, Str(" ")), Write(rc + 2, i, Str(" ")),
                Write(rc + 3, i, Formula(SumFormula(i, rc)))]
             else [];
    assert ColumnOps(cfg, rc, i, key, val) == w + d + n;
    CellAtConcat(w + d, n, r, c);
    CellAtConcat(w, d, r, c);
    CellOfSingle(w[0], r, c);
    if key == "Date" {
      CellAtConcat([d[0], d[1]], [d[2]], r, c);
      CellAtConcat([d[0]], [d[1]], r, c);
      assert d == [d[0], d[1]] + [d[2]];
      assert [d[0], d[1]] == [d[0]] + [d[1]];
      CellOfSingle(d[0], r, c);
      CellOfSingle(d[1], r, c);
      CellOfSingle(d[2], r, c);
    }
    if key in cfg.summed {
      CellAtConcat([n[0], n[1], n[2]], [n[3]], r, c);
      CellAtConcat([n[0], n[1]], [n[2]], r, c);
      CellAtConcat([n[0]], [n[1]], r, c);
      assert n == [n[0], n[1], n[2]] + [n[3]];
      assert [n[0], n[1], n[2]] == [n[0], n[1]] + [n[2]];
      assert [n[0], n[1]] == [n[0]] + [n[1]];
      CellOfSingle(n[0], r, c);
      CellOfSingle(n[1], r, c);
      CellOfSingle(n[2], r, c);
      CellOfSingle(n[3], r, c);
    }
  }

  /** The calls for the columns from `i` on leave `ColumnCell` in each of them and touch no other column. */
  lemma {:induction false} CellsFromLayout(cfg: Config, rc: nat, row: Row, i: nat, r: nat, c: nat)
    ensures CellAt(CellsFrom(cfg, rc, row, i), r, c)
      == if i <= c < i + |row| then ColumnCell(cfg, rc, c, row[c - i].0, row[c - i].1, r) else None
    decreases |row|
  {
    if |row| > 0 {
      CellsFromLayout(cfg, rc, row[1..], i + 1, r, c);
      ColumnOpsLayout(cfg, rc, i, row[0].0, row[0].1, r, c);
      CellAtConcat(ColumnOps(cfg, rc, i, row[0].0, row[0].1), CellsFrom(cfg, rc, row[1..], i + 1), r, c);
    }
  }

  /**
    An append leaves every cell as `AppendedCell` describes it: the row's
    values in row `rc`, the GL code in the column after them, the footer
    under the Date and summed columns, and nothing anywhere else.
   */
  lemma AppendLayout(cfg: Config, rc: nat, row: Row, gl: string, r: nat, c: nat)
    ensures CellAt(AppendOps(cfg, rc, row, gl), r, c) == AppendedCell(cfg, rc, row, gl, r, c)
  {
    CellsFromLayout(cfg, rc, row, 0, r, c);
    CellAtConcat(CellsFrom(cfg, rc, row, 0), [Write(rc, |row|, Str(gl))], r, c);
    CellOfSingle(Write(rc, |row|, Str(gl)), r, c);
  }

  /** A cell after an append: what the append wrote there, or else what the sheet already held. */
  lemma AppendCells(cfg: Config, s: Sheet, row: Row, gl: string, r: nat, c: nat)
    ensures CellAt(Append(cfg, s, row, gl).ops, r, c)
      == if AppendedCell(cfg, s.rowCount, row, gl, r, c).Some? then AppendedCell(cfg, s.rowCount, row, gl, r, c)
         else CellAt(s.ops, r, c)
  {
    var a := AppendOps(cfg, s.rowCount, row, gl);
    assert Append(cfg, s, row, gl).ops == s.ops + a;
    CellAtConcat(s.ops, a, r, c);
    AppendLayout(cfg, s.rowCount, row, gl, r, c);
  }

  /** Calls that write no cell of row `r` leave that row empty. */
  lemma {:induction false} UnwrittenRowEmpty(ops: seq<SheetOp>, r: nat, c: nat)
    requires forall k :: 0 <= k < |ops| && ops[k].Write? ==> ops[k].row != r
    ensures CellAt(ops, r, c) == None
    decreases |ops|
  {
    if |ops| > 0 {
      UnwrittenRowEmpty(ops[..|ops| - 1], r, c);
    }
  }

  /** Calls that only write cells set no column's width or visibility. */
  lemma {:induction false} WritesSetNoColumn(ops: seq<SheetOp>, c: nat)
    requires forall k :: 0 <= k < |ops| ==> ops[k].Write?
    ensures ColumnAt(ops, c) == None
    decreases |ops|
  {
    if |ops| > 0 {
      WritesSetNoColumn(ops[..|ops| - 1], c);
    }
  }

  // ---------------------------------------------------------------------
  // The date -> sheet map (`ssheets`, `updateWorksheet`)

  /** The sheet opened for a date not seen before: header written, next row 1. */
  function NewSheet(cfg: Config, date: string, keys: seq<string>): (s: Sheet)
    ensures s.rowCount == 1
    ensures s.fileName == date + ".xlsx"
    ensures forall k :: 0 <= k < |s.ops| && s.ops[k].Write? ==> s.ops[k].row == 0
  {
    Sheet(date + ".xlsx", 1, HeaderOps(cfg, keys))
  }

  /** `appendWorksheetRow`: write the row at `rowCount`, then move `rowCount` on by one. */
  function Append(cfg: Config, s: Sheet, row: Row, gl: string): (t: Sheet)
    ensures t.rowCount == s.rowCount + 1
    ensures t.fileName == s.fileName
    ensures |s.ops| <= |t.ops| && t.ops[..|s.ops|] == s.ops
  {
    var t := s.(rowCount := s.rowCount + 1, ops := s.ops + AppendOps(cfg, s.rowCount, row, gl));
    assert t.ops[..|s.ops|] == s.ops;
    t
  }

  /**
    `updateWorksheet`: open the date's sheet if it has none, then append
    the row to it. Only that date's sheet changes, its `rowCount` grows by
    one, and a new sheet ends at 2 (header, then the row at 1).
   */
  function UpdateWorksheet(cfg: Config, book: Book, date: string, row: Row, gl: string): (b: Book)
    ensures b.Keys == book.Keys + {date}
    ensures forall d :: d in book && d != date ==> b[d] == book[d]
    ensures b[date].rowCount == (if date in book then book[date].rowCount else 1) + 1
    ensures date in book ==> b[date].fileName == book[date].fileName
    ensures date !in book ==> b[date].fileName == date + ".xlsx"
  {
    var s := if date in book then book[date] else NewSheet(cfg, date, Keys(row));
    book[date := Append(cfg, s, row, gl)]
  }

  /** One classified input row: its date, its columns, and the GL code chosen for it. */
  datatype Entry = Entry(date: string, row: Row, gl: string)

  /** The main loop's sheet updates, one entry after another. */
  function Process(cfg: Config, book: Book, entries: seq<Entry>): Book
    decreases |entries|
  {
    if |entries| == 0 then book
    else
      var e := entries[0];
      Process(cfg, UpdateWorksheet(cfg, book, e.date, e.row, e.gl), entries[1..])
  }

  /** How many entries carry date `d`. */
  function Count(entries: seq<Entry>, d: string): nat {
    if |entries| == 0 then 0
    else (if entries[0].date == d then 1 else 0) + Count(entries[1..], d)
  }

  /**
    After a run, a date has a sheet exactly when it had one or some entry
    carries it, and its `rowCount` has grown by one per entry of that date
    (from 1 for a date first seen in the run).
   */
  lemma {:induction false} ProcessCounts(cfg: Config, book: Book, entries: seq<Entry>, d: string)
    ensures d in Process(cfg, book, entries) <==> d in book || Count(entries, d) > 0
    ensures d in Process(cfg, book, entries) ==>
      Process(cfg, book, entries)[d].rowCount == (if d in book then book[d].rowCount else 1) + Count(entries, d)
    decreases |entries|
  {
    if |entries| > 0 {
      var e := entries[0];
      ProcessCounts(cfg, UpdateWorksheet(cfg, book, e.date, e.row, e.gl), entries[1..], d);
    }
  }

  /** From no sheets at all, each date's `rowCount` is one more than its number of rows. */
  lemma RowCountFromScratch(cfg: Config, entries: seq<Entry>, d: string)
    ensures d in Process(cfg, map[], entries) <==> Count(entries, d) > 0
    ensures d in Process(cfg, map[], entries) ==> Process(cfg, map[], entries)[d].rowCount == 1 + Count(entries, d)
  {
    ProcessCounts(cfg, map[], entries, d);
  }

  // ---------------------------------------------------------------------
  // The running footer

  /** No call on `s` writes below its footer row `rowCount + 2`. */
  predicate WithinFooter(s: Sheet) {
    forall k :: 0 <= k < |s.ops| && s.ops[k].Write? ==> s.ops[k].row <= s.rowCount + 2
  }

  /** Every formula cell of `s` is in its footer row, under a summed column of `keys`. */
  ghost predicate FormulasInFooter(cfg: Config, keys: seq<string>, s: Sheet) {
    forall r: nat, c: nat :: IsFormula(CellAt(s.ops, r, c)) ==>
      r == s.rowCount + 2 && c < |keys| && keys[c] in cfg.summed
  }

  /** What the header row holds in column `c`: the column names, then "GL". */
  function HeaderCell(keys: seq<string>, c: nat): Option<Content> {
    if c < |keys| then Some(Str(keys[c]))
    else if c == |keys| then Some(Str("GL"))
    else None
  }

  /** The width and visibility set for column `c` by the header. */
  function HeaderColumn(cfg: Config, keys: seq<string>, c: nat): Option<ColumnSpec> {
    if c < |keys| then Some(ColumnSpec(Width(keys[c]), keys[c] !in cfg.shown)) else None
  }

  /**
    What the footer row holds in column `c` when the last row was written
    at `rc`: the SUM formula under a summed column, "Totals:" under the
    Date column, nothing elsewhere.
   */
  function FooterCell(cfg: Config, keys: seq<string>, rc: nat, c: nat): Option<Content> {
    if c < |keys| && keys[c] in cfg.summed then Some(Formula(SumFormula(c, rc)))
    else if c < |keys| && keys[c] == "Date" then Some(Str("Totals:"))
    else None
  }

  /** Row 0 of `s` and its column settings are still the header's. */
  ghost predicate Headed(cfg: Config, keys: seq<string>, s: Sheet) {
    && s.rowCount >= 1
    && (forall c: nat :: CellAt(s.ops, 0, c) == HeaderCell(keys, c))
    && (forall c: nat :: ColumnAt(s.ops, c) == HeaderColumn(cfg, keys, c))
  }

  /**
    The footer row `rowCount + 2` holds `FooterCell` for the row written
    last: each summed column's SUM covers rows 2 to `rowCount` (1-based),
    that is all data rows.
   */
  ghost predicate FooterRow(cfg: Config, keys: seq<string>, s: Sheet) {
    && s.rowCount >= 2
    && forall r: nat, c: nat :: r == s.rowCount + 2 ==> CellAt(s.ops, r, c) == FooterCell(cfg, keys, s.rowCount - 1, c)
  }

  /** The invariant every sheet of the map keeps, given the column names `keys` all its rows share. */
  ghost predicate Footed(cfg: Config, keys: seq<string>, s: Sheet) {
    Headed(cfg, keys, s) && WithinFooter(s) && FormulasInFooter(cfg, keys, s) && FooterRow(cfg, keys, s)
  }

  /** A fresh sheet holds its header, has no formula and writes only its header row. */
  lemma NewSheetFooter(cfg: Config, date: string, keys: seq<string>)
    ensures Headed(cfg, keys, NewSheet(cfg, date, keys))
    ensures WithinFooter(NewSheet(cfg, date, keys))
    ensures FormulasInFooter(cfg, keys, NewSheet(cfg, date, keys))
    ensures forall r: nat, c: nat :: !IsFormula(CellAt(NewSheet(cfg, date, keys).ops, r, c))
  {
    var s := NewSheet(cfg, date, keys);
    forall r: nat, c: nat | IsFormula(CellAt(s.ops, r, c))
      ensures false
    {
      HeaderLayout(cfg, keys, r, c);
    }
    forall c: nat
      ensures CellAt(s.ops, 0, c) == HeaderCell(keys, c)
      ensures ColumnAt(s.ops, c) == HeaderColumn(cfg, keys, c)
    {
      HeaderLayout(cfg, keys, 0, c);
    }
  }

  /**
    Appending a row with the sheet's column names moves the footer down
    by one: the old SUM formulas are overwritten with blanks, the new
    footer's formulas cover every row written so far, and the header
    stays as it was.
   */
  lemma AppendFooter(cfg: Config, keys: seq<string>, s: Sheet, row: Row, gl: string)
    requires Keys(row) == keys
    requires Headed(cfg, keys, s) && WithinFooter(s) && FormulasInFooter(cfg, keys, s)
    ensures Footed(cfg, keys, Append(cfg, s, row, gl))
  {
    AppendKeepsHeader(cfg, keys, s, row, gl);
    AppendMovesFormulas(cfg, keys, s, row, gl);
    AppendWritesFooter(cfg, keys, s, row, gl);
  }

  /** An append writes below the header and sets no column, so the header survives it. */
  lemma AppendKeepsHeader(cfg: Config, keys: seq<string>, s: Sheet, row: Row, gl: string)
    requires Headed(cfg, keys, s)
    ensures Headed(cfg, keys, Append(cfg, s, row, gl))
  {
    var a := AppendOps(cfg, s.rowCount, row, gl);
    var t := Append(cfg, s, row, gl);
    assert t.ops == s.ops + a;
    forall c: nat
      ensures CellAt(t.ops, 0, c) == HeaderCell(keys, c)
      ensures ColumnAt(t.ops, c) == HeaderColumn(cfg, keys, c)
    {
      AppendCells(cfg, s, row, gl, 0, c);
      ColumnAtConcat(s.ops, a, c);
      WritesSetNoColumn(a, c);
    }
  }

  /** After an append, the only formulas are in the new footer row: the old ones were blanked. */
  lemma AppendMovesFormulas(cfg: Config, keys: seq<string>, s: Sheet, row: Row, gl: string)
    requires Keys(row) == keys
    requires FormulasInFooter(cfg, keys, s)
    ensures FormulasInFooter(cfg, keys, Append(cfg, s, row, gl))
  {
    var rc := s.rowCount;
    var a := AppendOps(cfg, rc, row, gl);
    var t := Append(cfg, s, row, gl);
    assert t.ops == s.ops + a;
    forall r: nat, c: nat | IsFormula(CellAt(t.ops, r, c))
      ensures r == t.rowCount + 2 && c < |keys| && keys[c] in cfg.summed
    {
      CellAtConcat(s.ops, a, r, c);
      AppendLayout(cfg, rc, row, gl, r, c);
    }
  }

  /**
    After an append, the new footer row holds "Totals:" under the Date
    column and under each summed column the SUM of every data row so far,
    and nothing is written below it.
   */
  lemma AppendWritesFooter(cfg: Config, keys: seq<string>, s: Sheet, row: Row, gl: string)
    requires Keys(row) == keys
    requires s.rowCount >= 1 && WithinFooter(s)
    ensures WithinFooter(Append(cfg, s, row, gl))
    ensures FooterRow(cfg, keys, Append(cfg, s, row, gl))
  {
    var rc := s.rowCount;
    var t := Append(cfg, s, row, gl);
    forall r: nat, c: nat | r == t.rowCount + 2
      ensures CellAt(t.ops, r, c) == FooterCell(cfg, keys, t.rowCount - 1, c)
    {
      AppendCells(cfg, s, row, gl, rc + 3, c);
      UnwrittenRowEmpty(s.ops, rc + 3, c);
    }
  }

  /** `UpdateWorksheet` keeps every sheet footed, when all rows share the column names `keys`. */
  lemma UpdateFooter(cfg: Config, keys: seq<string>, book: Book, date: string, row: Row, gl: string)
    requires Keys(row) == keys
    requires forall d :: d in book ==> Footed(cfg, keys, book[d])
    ensures forall d :: d in UpdateWorksheet(cfg, book, date, row, gl) ==>
      Footed(cfg, keys, UpdateWorksheet(cfg, book, date, row, gl)[d])
  {
    if date !in book {
      NewSheetFooter(cfg, date, keys);
      AppendFooter(cfg, keys, NewSheet(cfg, date, keys), row, gl);
    } else {
      AppendFooter(cfg, keys, book[date], row, gl);
    }
  }

  /**
    Over a run whose rows all have the column names `keys` (as every row
    of one CSV export has), every sheet stays footed: its only formulas
    are the SUMs in its footer row, and each covers all its data rows.
   */
  lemma {:induction false} ProcessFooter(cfg: Config, keys: seq<string>, book: Book, entries: seq<Entry>)
    requires forall k :: 0 <= k < |entries| ==> Keys(entries[k].row) == keys
    requires forall d :: d in book ==> Footed(cfg, keys, book[d])
    ensures forall d :: d in Process(cfg, book, entries) ==> Footed(cfg, keys, Process(cfg, book, entries)[d])
    decreases |entries|
  {
    if |entries| > 0 {
      var e := entries[0];
      UpdateFooter(cfg, keys, book, e.date, e.row, e.gl);
      ProcessFooter(cfg, keys, UpdateWorksheet(cfg, book, e.date, e.row, e.gl), entries[1..]);
    }
  }

  /**
    At the end of a run from no sheets, a cell of a date's sheet holds a
    formula exactly when it is in the footer row under a summed column,
    and that formula is `SUM(X2:X{rowCount})`.
   */
  lemma FinalFormulas(cfg: Config, keys: seq<string>, entries: seq<Entry>, d: string, r: nat, c: nat)
    requires forall k :: 0 <= k < |entries| ==> Keys(entries[k].row) == keys
    requires d in Process(cfg, map[], entries)
    ensures Process(cfg, map[], entries)[d].rowCount >= 2
    ensures var s := Process(cfg, map[], entries)[d];
      IsFormula(CellAt(s.ops, r, c)) <==> r == s.rowCount + 2 && c < |keys| && keys[c] in cfg.summed
    ensures var s := Process(cfg, map[], entries)[d];
      IsFormula(CellAt(s.ops, r, c)) ==> CellAt(s.ops, r, c) == Some(Formula(SumFormula(c, s.rowCount - 1)))
  {
    ProcessFooter(cfg, keys, map[], entries);
  }

  /**
    At the end of a run from no sheets, a date's sheet still has the header
    it was opened with, its footer row holds "Totals:" and the SUMs of all
    data rows, and nothing lies below the footer.
   */
  lemma FinalHeaderAndFooter(cfg: Config, keys: seq<string>, entries: seq<Entry>, d: string, r: nat, c: nat)
    requires forall k :: 0 <= k < |entries| ==> Keys(entries[k].row) == keys
    requires d in Process(cfg, map[], entries)
    ensures var s := Process(cfg, map[], entries)[d];
      && s.rowCount >= 2
      && CellAt(s.ops, 0, c) == HeaderCell(keys, c)
      && ColumnAt(s.ops, c) == HeaderColumn(cfg, keys, c)
      && CellAt(s.ops, s.rowCount + 2, c) == FooterCell(cfg, keys, s.rowCount - 1, c)
      && (r > s.rowCount + 2 ==> CellAt(s.ops, r, c) == None)
  {
    ProcessFooter(cfg, keys, map[], entries);
    var s := Process(cfg, map[], entries)[d];
    if r > s.rowCount + 2 {
      UnwrittenRowEmpty(s.ops, r, c);
    }
  }

  // ---------------------------------------------------------------------
  // Summed-column membership: as written and as intended

  /** Every character of a piece of `s` occurs in `s`. */
  lemma SubstringChars(s: string, k: string, i: nat)
    requires k in Substrings(s) && i < |k|
    ensures k[i] in s
  {
    var a, b :| 0 <= a <= b <= |s| && k == s[a..b];
    assert k[i] == s[a + i];
  }

  /** As written, the pieces "Net" and "Total", and the empty name, count as summed columns. */
  lemma SourceSumsPieces()
    ensures "Net" in SourceConfig.summed && "Total" in SourceConfig.summed && "" in SourceConfig.summed
    ensures "Net Total" in SourceConfig.summed
  {
    var s := "Net Total";
    assert s[0..3] == "Net";
    assert s[4..9] == "Total";
    assert s[0..0] == "";
    assert s[0..9] == s;
  }

  /**
    So, as written, a column named "Net" (or "Total") is summed: its
    value is rewritten as a currency number and a SUM formula is put
    under it.
   */
  lemma SourceSumsNetColumn(rc: nat, row: Row, gl: string, c: nat)
    requires c < |row| && (row[c].0 == "Net" || row[c].0 == "Total")
    ensures CellAt(AppendOps(SourceConfig, rc, row, gl), rc, c) == Some(Currency(RemoveDollars(row[c].1)))
    ensures CellAt(AppendOps(SourceConfig, rc, row, gl), rc + 3, c) == Some(Formula(SumFormula(c, rc)))
  {
    SourceSumsPieces();
    AppendLayout(SourceConfig, rc, row, gl, rc, c);
    AppendLayout(SourceConfig, rc, row, gl, rc + 3, c);
  }

  /** The footer of the first data row of a sheet, in the first column. */
  lemma FirstFooterFormula()
    ensures SumFormula(0, 1) == "SUM(A2:A2)"
  {
    assert ColumnName.Name(0) == "A";
    assert Decimal.Show(2) == "2";
  }

  /** With the intended membership, formulas land exactly under the columns named "Net Total". */
  lemma IntendedFormulasOnlyUnderNetTotal(rc: nat, row: Row, gl: string, r: nat, c: nat)
    ensures IsFormula(CellAt(AppendOps(IntendedConfig, rc, row, gl), r, c))
      <==> r == rc + 3 && c < |row| && row[c].0 == "Net Total"
  {
    AppendLayout(IntendedConfig, rc, row, gl, r, c);
  }

  /** On the shown columns the two memberships agree: the difference needs a column the export does not have. */
  lemma ConfigsAgreeOnShownColumns(k: string)
    requires k in ShownColumns
    ensures k in SourceConfig.summed <==> k in IntendedConfig.summed
  {
    SourceSumsPieces();
    if k != "Net Total" && k in SourceConfig.summed {
      SubstringChars("Net Total", k, 0);
      assert false;
    }
  }
}

=== FILE: text.dfy ===
/**
  Splitting text on a separator character, as Python's `str.split(sep)`
  does for a one-character `sep`, and the first field it yields.
 */
module Text {

  /** The text of `s` before the first `sep`, or all of `s` when it has none. */
  function Before(s: string, sep: char): (r: string)
    ensures |r| <= |s| && r == s[..|r|]
    ensures sep !in r
    ensures |r| < |s| ==> s[|r|] == sep
  {
    if |s| == 0 || s[0] == sep then [] else [s[0]] + Before(s[1..], sep)
  }

  /** The three facts `Before` promises pin its result down. */
  lemma BeforeUnique(s: string, sep: char, r: string)
    requires |r| <= |s| && r == s[..|r|]
    requires sep !in r
    requires |r| < |s| ==> s[|r|] == sep
    ensures r == Before(s, sep)
  {
    var b := Before(s, sep);
    if |b| < |r| {
      assert false;
    } else if |r| < |b| {
      assert false;
    }
  }

  /** A field free of `sep` followed by `sep` is what `Before` yields. */
  lemma BeforeConcat(a: string, sep: char, b: string)
    requires sep !in a
    ensures Before(a + [sep] + b, sep) == a
  {
    var s := a + [sep] + b;
    assert s[..|a|] == a;
    BeforeUnique(s, sep, a);
  }

  /** The fields of `s` between occurrences of `sep`, in order. */
  function Split(s: string, sep: char): (parts: seq<string>)
    ensures |parts| >= 1
    ensures parts[0] == Before(s, sep)
    ensures forall i :: 0 <= i < |parts| ==> sep !in parts[i]
    decreases |s|
  {
    var head := Before(s, sep);
    if |head| == |s| then [s] else [head] + Split(s[|head| + 1..], sep)
  }

  /** The fields `parts` written out with `sep` between each two. */
  function Join(parts: seq<string>, sep: char): string
    requires |parts| >= 1
  {
    if |parts| == 1 then parts[0] else parts[0] + [sep] + Join(parts[1..], sep)
  }

  /** When `s` holds `sep`, splitting it is its first field followed by the split of the rest. */
  lemma SplitStep(s: string, sep: char)
    requires |Before(s, sep)| < |s|
    ensures var head := Before(s, sep);
      && s == head + [sep] + s[|head| + 1..]
      && Split(s, sep) == [head] + Split(s[|head| + 1..], sep)
  {
    var head := Before(s, sep);
    assert s == s[..|head|] + [s[|head|]] + s[|head| + 1..];
  }

  /** Joining a field onto fields joins them with `sep` between. */
  lemma JoinStep(head: string, rest: seq<string>, sep: char)
    requires |rest| >= 1
    ensures Join([head] + rest, sep) == head + [sep] + Join(rest, sep)
  {
    assert ([head] + rest)[1..] == rest;
  }

  /** Splitting loses nothing: joining the fields again gives `s` back. */
  lemma {:induction false} JoinSplit(s: string, sep: char)
    ensures Join(Split(s, sep), sep) == s
    decreases |s|
  {
    var head := Before(s, sep);
    if |head| < |s| {
      var rest := s[|head| + 1..];
      SplitStep(s, sep);
      JoinStep(head, Split(rest, sep), sep);
      JoinSplit(rest, sep);
    }
  }

  /** Fields free of `sep` come back unchanged from a join then a split. */
  lemma {:induction false} SplitJoin(parts: seq<string>, sep: char)
    requires |parts| >= 1
    requires forall i :: 0 <= i < |parts| ==> sep !in parts[i]
    ensures Split(Join(parts, sep), sep) == parts
    decreases |parts|
  {
    if |parts| > 1 {
      var rest := Join(parts[1..], sep);
      var s := Join(parts, sep);
      assert parts == [parts[0]] + parts[1..];
      JoinStep(parts[0], parts[1..], sep);
      BeforeConcat(parts[0], sep, rest);
      SplitStep(s, sep);
      assert s[|parts[0]| + 1..] == rest;
      SplitJoin(parts[1..], sep);
    } else {
      BeforeUnique(parts[0], sep, parts[0]);
    }
  }
}

=== FILE: wrappers.dfy ===
/** The optional-value datatype used across the model. */
module Wrappers {

  /** Either no value, or some value of type T. */
  datatype Option<+T> = None | Some(value: T)
}
